=== FILE: README.md ===
# Chess manager local-storage data layer, in Dafny

This project models the data layer of the chess tournament manager's web
front end. In the original, the logic sits inline in three React pages. Here
it is lifted out as pure functions over an explicit, typed key/value store:

- `Store` holds the keys the pages use: `userData`, `authToken`, the legacy
  `role`, `tournaments`, and one `registrations_<id>` array per tournament.
  Each key's JSON text is represented by its parsed value.
- `Js` models the part of JavaScript's object model the pages rely on:
  property reads that yield `undefined`, truthiness, string coercion, and
  the spread `{ ...a, ...b }`.
- `Overview` covers the tournament overview page (`Index.jsx`): the status counters, the
  player total, the first-three featured cards, the "from last month" labels
  against the fixed baselines 10, 2 and 2, the status badge, the logged-in
  flag, and the recomputations its `storage`, `authChange` and `focus`
  listeners run.
- `Profile` covers the profile page (`Profile.jsx`): the defaulted user
  record, hydrating it from `userData`, single-field edits, saving, the
  ownership filter, the participation join over `registrations_<id>`, and
  the avatar initials.
- `Login` covers the sign-in handler (`Login.jsx`). It is a function from
  the submitted email and password to the sequence of effects it performs.
  `Run` replays those effects on a store.
- `Seqs` and `Text` are supporting modules. `Seqs` holds `filter`, the
  positions a filter keeps, and order-preserving subsequences. `Text` holds
  decimal rendering and parsing of integers, and ASCII upper-casing.

Three facts about the code shape the model:

- Sign-in puts `role: "arbiter"` inside `userData` and writes `authToken`,
  but never writes the separate `role` key that `Dashboard.jsx` reads.
- Stored JSON is parsed with `JSON.parse` and no recovery: malformed text
  would throw rather than fall back to an empty default. The model holds
  typed values only, so it has no malformed case.
- `getInitials` upper-cases both letters: `toUpperCase` applies to the
  whole two-letter string, so the last-name initial is upper-cased too.

## Model

| member | source | states |
|---|---|---|
| `Store.RegistrationsKeyInjective` | frontend/src/pages/Profile.jsx:79 | two tournament ids share a registrations key iff they are the same id |
| `Store.RegistrationsReadAfterWrite` | frontend/src/pages/Profile.jsx:79 | reading a tournament's registrations returns what was last written under its key; writing another tournament's registrations leaves them unchanged |
| `Overview.ComputeStats` | frontend/src/pages/Index.jsx:96-120 | total is the collection length; each status counter is the number of positions whose status is exactly that string; active + upcoming + completed ≤ total, with equality when every status is one of the three; the player total is the sum of the counts with a missing count as 0; all zero on the empty collection |
| `Overview.CountByStatus` | frontend/src/pages/Index.jsx:98-106 | `filter(t => t.status === s).length` is the number of positions holding status `s` |
| `Overview.LoadStats` | frontend/src/pages/Index.jsx:88-120 | with the `tournaments` key absent, all five counters are 0; otherwise total is the length of the stored collection, each status counter is the number of its positions holding exactly that status, and the player total is the sum of the stored counts with a missing count as 0 |
| `Overview.TotalPlayersAppend` | frontend/src/pages/Index.jsx:109-112 | the player total is additive over concatenation of collections |
| `Overview.TotalPlayersNotDeduplicated` | frontend/src/pages/Index.jsx:109-112 | appending a tournament adds exactly its count (a missing count adds 0), even when it is already present; a tournament listed twice counts twice |
| `Overview.TotalPlayersBounds` | frontend/src/pages/Index.jsx:109-112 | with no negative counts, the total is non-negative and at least every single tournament's count |
| `Overview.TwoTournamentScenario` | frontend/src/pages/Index.jsx:97-112 | one active tournament of 10 players and one upcoming one of 5 give total 2, active 1, upcoming 1, completed 0, players 15 |
| `Overview.Cards` | frontend/src/pages/Index.jsx:124-136 | mapping builds one card per tournament, card i from tournament i |
| `Overview.Featured` | frontend/src/pages/Index.jsx:124-136 | min(3, n) cards; card i comes from tournament i in stored order, with id, status, players, location and map link copied, title = name, date = startDate, description = format + " tournament", and the fixed prize, rating and image |
| `Overview.ChangeLabelReadsBack` | frontend/src/pages/Index.jsx:143-152 | a change label reads back as exactly value − baseline; it starts with "+" iff value > baseline and with "-" iff value < baseline; equal values give "0 from last month" (no "Same" case) |
| `Overview.UpcomingChange` | frontend/src/pages/Index.jsx:160-164 | the label is "Same as last month" iff upcoming == 2; otherwise it reads back as upcoming − 2, with "+" iff upcoming > 2 |
| `Overview.StatCards` | frontend/src/pages/Index.jsx:138-167 | three cards showing total, active and upcoming; their labels read back against the baselines 10, 2 and 2, with "+" iff above the baseline (for the upcoming card, whenever it is not at its baseline) and "-" iff below it; the total and active cards read "0 from last month" at their baseline, while the upcoming card alone has a "Same" case, shown iff upcoming equals 2 |
| `Overview.StatusVariant` | frontend/src/pages/Index.jsx:192-203 | the outline badge is chosen iff the status is none of active, upcoming, completed |
| `Overview.StatusVariantReadsBack` | frontend/src/pages/Index.jsx:192-203 | each known status gets its own badge and reads back from it (active→destructive, upcoming→default, completed→secondary); every other status gets outline |
| `Overview.CheckLoginStatus` | frontend/src/pages/Index.jsx:69-72 | the logged-in flag is true iff the `userData` key is present; the other view parts are unchanged |
| `Overview.LoadTournaments` | frontend/src/pages/Index.jsx:88-121 | the view's collection becomes the stored collection and its counters are exactly the statistics of that collection (length, per-status counts, player total); the login flag is kept; with the key absent all counters are zero |
| `Overview.OnStorage` | frontend/src/pages/Index.jsx:48-55 | a `storage` event for any key other than `tournaments` or `userData` leaves the view unchanged; `tournaments` reloads the collection and recomputes the counters from it; `userData` re-runs the login check and keeps collection and counters |
| `Overview.MountIsFresh` | frontend/src/pages/Index.jsx:32-45 | from the initial empty, logged-out state the mount's two loaders leave a view that agrees with the store; an empty store keeps the initial view |
| `Overview.OnFocus` | frontend/src/pages/Index.jsx:76-79 | after the focus handler the view agrees with the store: collection, counters and login flag |
| `Overview.RecomputeIsStable` | frontend/src/pages/Index.jsx:43-86 | a view that agrees with the store is left unchanged by every listener, so recomputing on the same store gives identical stats |
| `Profile.LoadUserData` | frontend/src/pages/Profile.jsx:62-67 | an absent or empty stored object leaves the record as it is; otherwise every stored field overrides and every other field keeps its value |
| `Profile.HydrateUnstored` | frontend/src/pages/Profile.jsx:62-64 | with `userData` absent or stored as `{}`, the page shows exactly the default record |
| `Profile.HydrateOverrides` | frontend/src/pages/Profile.jsx:37-67 | the hydrated record has every default field; every stored field overrides; every default field not stored keeps its default |
| `Profile.HydrateStoredField` | frontend/src/pages/Profile.jsx:65 | a stored field is shown with its stored value |
| `Profile.HydrateDefaultField` | frontend/src/pages/Profile.jsx:37-51 | a default field that is not stored is shown with its default value |
| `Profile.EditField` | frontend/src/pages/Profile.jsx:88-90 | the named field takes the new value, every other field is unchanged, and the default shape is preserved |
| `Profile.SaveProfile` | frontend/src/pages/Profile.jsx:92-93 | the whole record is written under `userData`; no other key changes |
| `Profile.SaveThenLoadRoundTrip` | frontend/src/pages/Profile.jsx:62-67 | loading a saved record over a record with no extra fields gives back exactly the saved record |
| `Profile.SaveThenHydrate` | frontend/src/pages/Profile.jsx:92-96 | saving a record of the default shape and hydrating again returns exactly that record |
| `Profile.EditSaveHydrate` | frontend/src/pages/Profile.jsx:88-96 | an edited field survives save and reload, and all other fields keep their pre-edit values |
| `Profile.OwnedTournaments` | frontend/src/pages/Profile.jsx:69-73 | a tournament is in the ownership list iff it is stored and its organizerName equals firstName + " " + lastName exactly |
| `Profile.OwnedTournamentsInOrder` | frontend/src/pages/Profile.jsx:69-73 | the ownership list is the stored list with exactly the non-matching positions removed, in stored order |
| `Profile.Registered` | frontend/src/pages/Profile.jsx:80 | true iff some registration's email is strictly equal to the given email |
| `Profile.ParticipatedTournaments` | frontend/src/pages/Profile.jsx:75-86 | tournament t is included iff it is stored and some entry of `registrations_<t.id>` has exactly the user's email; a missing key excludes t |
| `Profile.ParticipatedInOrder` | frontend/src/pages/Profile.jsx:75-86 | the participation list is the stored list with exactly the unregistered positions removed, in stored order |
| `Profile.ParticipationIgnoresUnresolvedKeys` | frontend/src/pages/Profile.jsx:78-84 | two stores that agree on the tournaments and on those tournaments' registration lists give the same participation list |
| `Profile.DanglingRegistrationsIgnored` | frontend/src/pages/Profile.jsx:78-84 | writing a registrations list under a key that no stored tournament resolves to never changes the participation list |
| `Profile.RegistrationScenario` | frontend/src/pages/Profile.jsx:75-86 | a registration for "a@x.com" under `registrations_7` includes tournament 7 for that email and for no other |
| `Text.ToUpper` | frontend/src/pages/Profile.jsx:111 | upper-casing keeps the length, leaves no lower-case letter, keeps every other character, and moves each lower-case letter to its upper-case partner |
| `Profile.Initials` | frontend/src/pages/Profile.jsx:109-112 | "U" when firstName is falsy; otherwise the upper-cased first letter of firstName, followed by the upper-cased first letter of lastName exactly when lastName is truthy; 1 or 2 characters, none lower-case |
| `Login.SignedInUser` | frontend/src/pages/auth/Login.jsx:31-36 | the demo record has exactly the fields firstName, lastName, email and role, and carries the submitted email |
| `Login.RunWithoutWrites` | frontend/src/pages/auth/Login.jsx:39-42 | a run of non-writing effects leaves the store unchanged |
| `Login.HandleSubmit` | frontend/src/pages/auth/Login.jsx:23-44 | authChange is raised iff the credentials are the demo ones, and the invalid-credentials alert is shown iff they are not; an accepted sign-in ends by navigating to "/", a rejected one does nothing but alert |
| `Login.WritesOnlyForDemoCredentials` | frontend/src/pages/auth/Login.jsx:30 | the handler writes to the store iff the email is "arbiterchess18@gmail.com" and the password is "12345678" |
| `Login.FailedSignInLeavesStore` | frontend/src/pages/auth/Login.jsx:41-43 | a rejected sign-in leaves the store unchanged |
| `Login.SignInWrites` | frontend/src/pages/auth/Login.jsx:37-38 | after the first two effects the store has the demo record and "demo-token" and nothing else changed; the remaining effects write nothing |
| `Login.SuccessfulSignInWrites` | frontend/src/pages/auth/Login.jsx:31-38 | after a successful sign-in `userData` is the demo record and `authToken` is "demo-token"; `role`, `tournaments` and the registrations are untouched |
| `Login.AuthChangeSeesSignedIn` | frontend/src/pages/auth/Login.jsx:37-39 | authChange is raised after both writes, so a same-tab `authChange` subscriber such as the overview page's (Index.jsx:57) sees a logged-in user at that point, and the store is already in its final state |
| `Login.HydrateSignedInRecord` | frontend/src/pages/auth/Login.jsx:31-36 | a store holding the demo record hydrates to the demo names, email and role, with the default country "India" and full name "Arbiter Admin" |
| `Login.ProfileAfterSignIn` | frontend/src/pages/Profile.jsx:62-71 | after sign-in the hydrated record has the demo names, email and role over the defaults, and its full name is "Arbiter Admin"; the page's own mount-time ownership filter still compares against the default record's "Demo User" |

## Left out

- JSON text: stored values are already parsed. `JSON.parse` and
  `JSON.stringify` are not modelled, and neither is the exception that
  malformed stored text would raise.
- Value kinds: profile and registration fields hold strings or `null` only.
  Numbers, booleans and nested objects in those records are not modelled.
  Tournament fields other than `players` and `organizerName` are always
  present strings. A tournament id is represented by its text, as it
  appears in the `registrations_<id>` key.
- `players || 0`: a count is an integer or missing. NaN, fractional and
  string counts are not modelled.
- Number width: counts, totals and label differences are unbounded
  integers. JavaScript numbers are doubles, so they agree only while every
  count and sum stays below 2^53 in magnitude.
- `Overview.TotalPlayersAppend`: additivity of the player total holds for
  exact integers; with doubles it holds only below 2^53.
- `Text.IntToString`: renders every integer in plain decimal. JavaScript
  switches to exponent form at magnitude 10^21 and above, so
  `Overview.ChangeLabelReadsBack` agrees with the page only below that.
- Event delivery: registering and removing the `storage`, `authChange` and
  `focus` listeners, cross-tab broadcast, and React effect scheduling are
  platform behaviour. Only the handlers' recomputations are modelled.
- React state timing: the profile page's ownership and participation
  loaders run in the same effect as `loadUserData` and so see the default
  record. The model takes the user record as an explicit argument instead.
- `Text.ToUpper`: upper-cases the ASCII letters only and always keeps the
  length. JavaScript's `toUpperCase` also maps other letters ("é" to "É")
  and can lengthen the text ("ß" to "SS"). It works on UTF-16 code units;
  the model works on Dafny characters.
- `Profile.Initials`: upper-casing covers the ASCII letters only.
  JavaScript's full Unicode mapping (which can change the length) is not
  modelled. `charAt` works on UTF-16 code units; the model works on Dafny
  characters.
- The avatar upload (FileReader to data URL), `alert`, navigation and
  `window.open` are browser APIs. Navigation and the alert appear only as
  effects in the sign-in handler. The profile page's `isEditing` toggle is
  presentation state.
- The search box on the overview page stores its text but never filters
  anything.
- The sign-up page has no submit logic. The dashboard page only displays
  the legacy `role` key, which nothing here writes. The navigation bar,
  footer, landing page, routes, UI wrapper components and all rendering are
  presentation.

=== FILE: js.dfy ===
/** The slice of JavaScript's object model the pages rely on: plain objects
    whose properties hold strings or `null`, property reads that yield
    `undefined` for a missing property, truthiness, string coercion and the
    object spread `{ ...a, ...b }`. */
module Js {

  /** The JSON values the pages store in an object property. */
  datatype Value = Null | Str(s: string)

  /** The result of reading a property: `undefined` when it is missing. Two
      fields are `===` exactly when they are equal here. */
  datatype Field = Undefined | Defined(v: Value)

  /** A plain object: property name to value. */
  type Object = map<string, Value>

  /** `o[key]` */
  function Get(o: Object, key: string): Field {
    if key in o then Defined(o[key]) else Undefined
  }

  /** JavaScript truthiness of a field: `undefined`, `null` and `""` are falsy. */
  predicate Truthy(f: Field) {
    f.Defined? && f.v.Str? && f.v.s != ""
  }

  /** String coercion, as performed by `+` with a string operand or by a
      template literal. */
  function ToText(f: Field): string {
    match f
    case Undefined => "undefined"
    case Defined(Null) => "null"
    case Defined(Str(s)) => s
  }

  /** The shallow merge `{ ...a, ...b }`: every property of `b` overrides,
      every other property of `a` is kept. */
  function Spread(a: Object, b: Object): (r: Object)
    ensures r.Keys == a.Keys + b.Keys
    ensures forall k :: k in b ==> r[k] == b[k]
    ensures forall k :: k in a && k !in b ==> r[k] == a[k]
  {
    a + b
  }

  /** `{ ...o, [key]: value }` */
  function With(o: Object, key: string, value: Value): (r: Object)
    ensures r.Keys == o.Keys + {key}
    ensures Get(r, key) == Defined(value)
    ensures forall k :: k != key ==> Get(r, k) == Get(o, k)
  {
    Spread(o, map[key := value])
  }

  /** Spreading an object over one that has no other properties yields the
      second object itself. */
  lemma SpreadAbsorbed(a: Object, b: Object)
    requires a.Keys <= b.Keys
    ensures Spread(a, b) == b
  {
    var r := Spread(a, b);
    assert r.Keys == b.Keys;
    assert forall k :: k in r ==> r[k] == b[k];
  }
}

=== FILE: login.dfy ===
/** The sign-in form's submit handler (`frontend/src/pages/auth/Login.jsx`):
    a fixed demo credential check that either writes the session keys and
    raises `authChange`, or only shows an alert. */
module Login {
  import opened Optional
  import opened Js
  import opened Store
  import Overview
  import Profile

  const DemoEmail: string := "arbiterchess18@gmail.com"
  const DemoPassword: string := "12345678"
  const DemoToken: string := "demo-token"
  const InvalidCredentials: string := "Invalid credentials. Try: arbiterchess18@gmail.com / 12345678"

  /** What the handler does, in the order it does it. */
  datatype Effect =
    | WriteUserData(user: Object)      // localStorage.setItem("userData", ...)
    | WriteAuthToken(token: string)    // localStorage.setItem("authToken", ...)
    | RaiseAuthChange                  // window.dispatchEvent(new Event("authChange"))
    | NavigateTo(path: string)
    | ShowAlert(message: string)

  /** The record written for the demo account. */
  function SignedInUser(email: string): (u: Object)
    ensures u.Keys == {"firstName", "lastName", "email", "role"}
    ensures Get(u, "email") == Defined(Str(email))
  {
    map["firstName" := Str("Arbiter"), "lastName" := Str("Admin"), "email" := Str(email), "role" := Str("arbiter")]
  }

  /** The store after one effect; only the two writes change it. */
  function Apply(s: Store, e: Effect): Store
  {
    match e
    case WriteUserData(u) => s.(userData := Some(u))
    case WriteAuthToken(t) => s.(authToken := Some(t))
    case _ => s
  }

  /** The store after a sequence of effects, applied in order. */
  function Run(s: Store, es: seq<Effect>): Store
    decreases |es|
  {
    if |es| == 0 then s else Run(Apply(s, es[0]), es[1..])
  }

  /** Effects that write nothing leave the store as it was. */
  lemma {:induction false} RunWithoutWrites(s: Store, es: seq<Effect>)
    requires forall i :: 0 <= i < |es| ==> !es[i].WriteUserData? && !es[i].WriteAuthToken?
    ensures Run(s, es) == s
    decreases |es|
  {
    if |es| > 0 {
      assert forall i :: 0 <= i < |es| - 1 ==> es[1..][i] == es[i + 1];
      RunWithoutWrites(s, es[1..]);
    }
  }

  /** The store once both session keys of a successful sign-in are written. */
  lemma SignInWrites(s: Store)
    ensures var es := HandleSubmit(DemoEmail, DemoPassword);
            && Run(s, es[..2]) == s.(userData := Some(SignedInUser(DemoEmail)), authToken := Some(DemoToken))
            && Run(s, es) == Run(s, es[..2])
            && forall i :: 2 <= i < |es| ==> !es[i].WriteUserData? && !es[i].WriteAuthToken?
  {
    var es := HandleSubmit(DemoEmail, DemoPassword);
    var s1 := Apply(s, es[0]);
    var s2 := Apply(s1, es[1]);
    assert es[1..][0] == es[1];
    assert es[1..][1..] == es[2..];
    RunWithoutWrites(s2, es[2..]);
    assert Run(s, es) == s2;
    var pre := es[..2];
    assert pre[0] == es[0] && pre[1..] == [es[1]];
    assert Run(s, pre) == Run(s1, [es[1]]);
    assert [es[1]][1..] == [];
    assert Run(s1, [es[1]]) == Run(s2, []);
  }

  predicate ValidCredentials(email: string, password: string) {
    email == DemoEmail && password == DemoPassword
  }

  /** `handleSubmit` for the submitted email and password. */
  function HandleSubmit(email: string, password: string): (es: seq<Effect>)
    ensures RaiseAuthChange in es <==> ValidCredentials(email, password)
    ensures ShowAlert(InvalidCredentials) in es <==> !ValidCredentials(email, password)
    ensures ValidCredentials(email, password) ==> es[|es| - 1] == NavigateTo("/")
    ensures !ValidCredentials(email, password) ==> |es| == 1
  {
    if email == DemoEmail && password == DemoPassword then
      [WriteUserData(SignedInUser(email)), WriteAuthToken(DemoToken), RaiseAuthChange, NavigateTo("/")]
    else
      [ShowAlert(InvalidCredentials)]
  }

  /** The store is written to exactly when both the email and the password
      are the demo ones. */
  lemma WritesOnlyForDemoCredentials(email: string, password: string)
    ensures (exists i :: 0 <= i < |HandleSubmit(email, password)| &&
              (HandleSubmit(email, password)[i].WriteUserData? || HandleSubmit(email, password)[i].WriteAuthToken?))
            <==> email == DemoEmail && password == DemoPassword
  {
    var es := HandleSubmit(email, password);
    if email == DemoEmail && password == DemoPassword {
      assert es[0].WriteUserData?;
    }
  }

  /** A rejected sign-in leaves every key as it was. */
  lemma FailedSignInLeavesStore(s: Store, email: string, password: string)
    requires !ValidCredentials(email, password)
    ensures Run(s, HandleSubmit(email, password)) == s
  {
  }

  /** A successful sign-in writes the demo record and token and nothing else:
      the legacy `role` key, the tournaments and the registrations are untouched. */
  lemma SuccessfulSignInWrites(s: Store)
    ensures var r := Run(s, HandleSubmit(DemoEmail, DemoPassword));
            && r.userData == Some(SignedInUser(DemoEmail))
            && r.authToken == Some(DemoToken)
            && r.role == s.role
            && r.tournaments == s.tournaments
            && r.registrations == s.registrations
  {
    SignInWrites(s);
  }

  /** `authChange` is raised after both writes, so a same-tab subscriber
      such as the overview page's listener, running the logged-in check on
      the store as it is at that moment, sees a logged-in user; nothing after
      the signal changes the store. */
  lemma AuthChangeSeesSignedIn(s: Store, v: Overview.IndexView)
    ensures var es := HandleSubmit(DemoEmail, DemoPassword);
            && es[0].WriteUserData? && es[1].WriteAuthToken? && es[2] == RaiseAuthChange
            && Overview.OnAuthChange(v, Run(s, es[..2])).isLoggedIn
            && Run(s, es[..2]) == Run(s, es)
  {
    SignInWrites(s);
  }

  /** Hydrating a store whose `userData` is the demo record. */
  lemma HydrateSignedInRecord(after: Store)
    requires after.userData == Some(SignedInUser(DemoEmail))
    ensures var u := Profile.Hydrate(after);
            && Get(u, "firstName") == Defined(Str("Arbiter"))
            && Get(u, "lastName") == Defined(Str("Admin"))
            && Get(u, "email") == Defined(Str(DemoEmail))
            && Get(u, "role") == Defined(Str("arbiter"))
            && Get(u, "country") == Defined(Str("India"))
            && Profile.FullName(u) == "Arbiter Admin"
  {
    var stored := SignedInUser(DemoEmail);
    Profile.HydrateStoredField(after, "firstName");
    Profile.HydrateStoredField(after, "lastName");
    Profile.HydrateStoredField(after, "email");
    Profile.HydrateStoredField(after, "role");
    Profile.DefaultCountry();
    Profile.HydrateDefaultField(after, "country");
    assert "Arbiter" + " " + "Admin" == "Arbiter Admin";
  }

  /** After a successful sign-in, hydrating the stored record gives the demo
      account's names, email and role over the defaults, with full name
      "Arbiter Admin". The page's own ownership filter runs at mount with the
      default record and so still compares against "Demo User". */
  lemma ProfileAfterSignIn(s: Store)
    ensures var u := Profile.Hydrate(Run(s, HandleSubmit(DemoEmail, DemoPassword)));
            && Get(u, "firstName") == Defined(Str("Arbiter"))
            && Get(u, "lastName") == Defined(Str("Admin"))
            && Get(u, "email") == Defined(Str(DemoEmail))
            && Get(u, "role") == Defined(Str("arbiter"))
            && Get(u, "country") == Defined(Str("India"))
            && Profile.FullName(u) == "Arbiter Admin"
            && Profile.FullName(Profile.DefaultUser) == "Demo User"
  {
    Profile.DefaultFullName();
    SuccessfulSignInWrites(s);
    HydrateSignedInRecord(Run(s, HandleSubmit(DemoEmail, DemoPassword)));
  }
}

=== FILE: optional.dfy ===
/** A value that may be absent: a storage key that was never written, a
    tournament field that was left out of the stored JSON. */
module Optional {

  datatype Option<+T> = None | Some(value: T) {

    /** The value, or `default` when there is none (JavaScript's `x || default`
        on a value that is only ever missing or present). */
    function GetOr(default: T): T {
      match this
      case Some(v) => v
      case None => default
    }
  }
}

=== FILE: overview.dfy ===
/** The tournament overview page's derived views (`frontend/src/pages/Index.jsx`): the
    tournament counters, the featured list, the month-over-month labels, the
    status badge and the logged-in flag, all recomputed from the store. */
module Overview {
  import opened Optional
  import opened Text
  import opened Seqs
  import opened Store

  const Active: string := "active"
  const Upcoming: string := "upcoming"
  const Completed: string := "completed"

  /** The filter callback `t => t.status === status`. */
  function HasStatus(status: string): Tournament -> bool {
    (t: Tournament) => t.status == status
  }

  /** `tournament.players || 0`: a missing count counts as 0. */
  function PlayerCount(t: Tournament): int {
    t.players.GetOr(0)
  }

  /** `reduce((sum, t) => sum + (t.players || 0), 0)`, folding from the left. */
  function TotalPlayers(ts: seq<Tournament>): int
    decreases |ts|
  {
    if |ts| == 0 then 0 else TotalPlayers(ts[..|ts| - 1]) + PlayerCount(ts[|ts| - 1])
  }

  datatype Stats = Stats(
    totalTournaments: nat,
    activeTournaments: nat,
    totalPlayers: int,
    upcomingTournaments: nat,
    completedTournaments: nat)

  const NoStats: Stats := Stats(0, 0, 0, 0, 0)

  /** Counting by status is counting the positions holding that exact status. */
  lemma CountByStatus(ts: seq<Tournament>, status: string)
    ensures |Filter(ts, HasStatus(status))| == |set i: nat | i < |ts| && ts[i].status == status|
  {
    FilterCountsPositions(ts, HasStatus(status));
    assert Positions(ts, HasStatus(status)) == set i: nat | i < |ts| && ts[i].status == status;
  }

  /** The counters `loadTournaments` derives from the stored collection. */
  function ComputeStats(ts: seq<Tournament>): (st: Stats)
    ensures st.totalTournaments == |ts|
    ensures st.activeTournaments == |set i: nat | i < |ts| && ts[i].status == Active|
    ensures st.upcomingTournaments == |set i: nat | i < |ts| && ts[i].status == Upcoming|
    ensures st.completedTournaments == |set i: nat | i < |ts| && ts[i].status == Completed|
    ensures st.activeTournaments + st.upcomingTournaments + st.completedTournaments <= st.totalTournaments
    ensures (forall i :: 0 <= i < |ts| ==> ts[i].status in {Active, Upcoming, Completed}) ==>
              st.activeTournaments + st.upcomingTournaments + st.completedTournaments == st.totalTournaments
    ensures st.totalPlayers == TotalPlayers(ts)
    ensures ts == [] ==> st == NoStats
  {
    CountByStatus(ts, Active);
    CountByStatus(ts, Upcoming);
    CountByStatus(ts, Completed);
    ExclusiveFilterCounts(ts, HasStatus(Active), HasStatus(Upcoming), HasStatus(Completed));
    Stats(
      |ts|,
      |Filter(ts, HasStatus(Active))|,
      TotalPlayers(ts),
      |Filter(ts, HasStatus(Upcoming))|,
      |Filter(ts, HasStatus(Completed))|)
  }

  /** The player total is additive over concatenation. */
  lemma {:induction false} TotalPlayersAppend(a: seq<Tournament>, b: seq<Tournament>)
    ensures TotalPlayers(a + b) == TotalPlayers(a) + TotalPlayers(b)
    decreases |b|
  {
    if |b| > 0 {
      var n := |b| - 1;
      assert (a + b)[..|a + b| - 1] == a + b[..n];
      TotalPlayersAppend(a, b[..n]);
    } else {
      assert a + b == a;
    }
  }

  /** Appending a tournament adds exactly its count, even when the same
      tournament is already in the collection (no de-duplication). */
  lemma TotalPlayersNotDeduplicated(ts: seq<Tournament>, t: Tournament)
    ensures TotalPlayers(ts + [t]) == TotalPlayers(ts) + PlayerCount(t)
    ensures TotalPlayers([t, t]) == 2 * PlayerCount(t)
  {
    TotalPlayersAppend(ts, [t]);
    TotalPlayersAppend([t], [t]);
  }

  /** With no negative counts stored, the total is at least every single count. */
  lemma {:induction false} TotalPlayersBounds(ts: seq<Tournament>)
    requires forall i :: 0 <= i < |ts| ==> PlayerCount(ts[i]) >= 0
    ensures TotalPlayers(ts) >= 0
    ensures forall i :: 0 <= i < |ts| ==> PlayerCount(ts[i]) <= TotalPlayers(ts)
    decreases |ts|
  {
    if |ts| > 0 {
      var n := |ts| - 1;
      assert forall i :: 0 <= i < n ==> ts[..n][i] == ts[i];
      TotalPlayersBounds(ts[..n]);
    }
  }

  /** The counters shown on the overview page for the given store. */
  function LoadStats(s: Store): (st: Stats)
    ensures s.tournaments.None? ==> st == NoStats
    ensures var ts := TournamentsOf(s);
            && st.totalTournaments == |ts|
            && st.activeTournaments == |set i: nat | i < |ts| && ts[i].status == Active|
            && st.upcomingTournaments == |set i: nat | i < |ts| && ts[i].status == Upcoming|
            && st.completedTournaments == |set i: nat | i < |ts| && ts[i].status == Completed|
            && st.totalPlayers == TotalPlayers(ts)
  {
    ComputeStats(TournamentsOf(s))
  }

  // ---------------------------------------------------------------------
  // Featured tournaments

  const FeaturedCount: nat := 3
  const TrophyImage: string := "\U{1F3C6}"

  /** The card built for one featured tournament. */
  datatype FeaturedCard = FeaturedCard(
    id: string,
    title: string,
    description: string,
    players: Option<int>,
    prize: string,
    status: string,
    date: string,
    location: string,
    googleMapsLink: string,
    rating: string,
    image: string)

  function Card(t: Tournament): FeaturedCard {
    FeaturedCard(t.id, t.name, t.format + " tournament", t.players, "Prizes Available",
                 t.status, t.startDate, t.location, t.googleMapsLink, "Open", TrophyImage)
  }

  /** `ts.map(Card)` */
  function Cards(ts: seq<Tournament>): (r: seq<FeaturedCard>)
    ensures |r| == |ts|
    ensures forall i :: 0 <= i < |ts| ==> r[i] == Card(ts[i])
    decreases |ts|
  {
    if |ts| == 0 then [] else [Card(ts[0])] + Cards(ts[1..])
  }

  /** `tournaments.slice(0, 3).map(...)`: the first three tournaments in stored
      order, each shown with its own fields. */
  function Featured(ts: seq<Tournament>): (r: seq<FeaturedCard>)
    ensures |r| == if |ts| < FeaturedCount then |ts| else FeaturedCount
    ensures forall i :: 0 <= i < |r| ==>
      && r[i].id == ts[i].id
      && r[i].title == ts[i].name
      && r[i].description == ts[i].format + " tournament"
      && r[i].players == ts[i].players
      && r[i].status == ts[i].status
      && r[i].date == ts[i].startDate
      && r[i].location == ts[i].location
      && r[i].googleMapsLink == ts[i].googleMapsLink
      && r[i].prize == "Prizes Available"
      && r[i].rating == "Open"
      && r[i].image == TrophyImage
  {
    var n := if |ts| < FeaturedCount then |ts| else FeaturedCount;
    Cards(ts[..n])
  }

  // ---------------------------------------------------------------------
  // "from last month" labels against fixed baselines

  const TotalBaseline: int := 10
  const ActiveBaseline: int := 2
  const UpcomingBaseline: int := 2
  const FromLastMonth: string := " from last month"
  const SameAsLastMonth: string := "Same as last month"

  /** `${value > baseline ? "+" : ""}${value - baseline} from last month` */
  function ChangeLabel(value: int, baseline: int): string {
    (if value > baseline then "+" else "") + IntToString(value - baseline) + FromLastMonth
  }

  /** Reads the signed difference back out of a change label; `None` for any text
      that is not of the form `<signed number> from last month`. */
  function ParseChange(text: string): Option<int> {
    var n := |FromLastMonth|;
    if |text| >= n && text[|text| - n..] == FromLastMonth then ParseSigned(text[..|text| - n])
    else None
  }

  /** A change label carries exactly the difference from the baseline, with a
      `+` exactly when the value exceeds it and a `-` exactly when it falls
      short; equal values read "0 from last month". */
  lemma ChangeLabelReadsBack(value: int, baseline: int)
    ensures ParseChange(ChangeLabel(value, baseline)) == Some(value - baseline)
    ensures ChangeLabel(value, baseline)[0] == '+' <==> value > baseline
    ensures ChangeLabel(value, baseline)[0] == '-' <==> value < baseline
    ensures value == baseline ==> ChangeLabel(value, baseline) == "0" + FromLastMonth
  {
    var d := value - baseline;
    var sign: string := if value > baseline then "+" else "";
    var num := sign + IntToString(d);
    var text := ChangeLabel(value, baseline);
    assert text == num + FromLastMonth;
    assert text[|text| - |FromLastMonth|..] == FromLastMonth;
    assert text[..|text| - |FromLastMonth|] == num;
    IntToStringRoundTrip(d);
    if value > baseline {
      assert num[1..] == IntToString(d);
      assert IntToString(d) == NatToString(d);
      NatToStringRoundTrip(d);
    } else {
      assert num == IntToString(d);
    }
    if value == baseline {
      assert IntToString(d) == "0";
    }
  }

  /** The upcoming card has a "Same" case the other two lack. */
  function UpcomingChange(upcoming: int): (text: string)
    ensures |text| > 0
    ensures text == SameAsLastMonth <==> upcoming == UpcomingBaseline
    ensures upcoming != UpcomingBaseline ==> ParseChange(text) == Some(upcoming - UpcomingBaseline)
    ensures upcoming != UpcomingBaseline ==> (text[0] == '+' <==> upcoming > UpcomingBaseline)
    ensures text[0] == '-' <==> upcoming < UpcomingBaseline
  {
    if upcoming == UpcomingBaseline then SameAsLastMonth
    else
      ChangeLabelReadsBack(upcoming, UpcomingBaseline);
      var text := ChangeLabel(upcoming, UpcomingBaseline);
      assert text[0] != SameAsLastMonth[0];
      text
  }

  /** The total card's label, against a baseline of 10. */
  function TotalChange(total: int): (text: string)
    ensures |text| > 0
    ensures ParseChange(text) == Some(total - TotalBaseline)
    ensures text[0] == '+' <==> total > TotalBaseline
    ensures text[0] == '-' <==> total < TotalBaseline
    ensures total == TotalBaseline ==> text == "0" + FromLastMonth
  {
    ChangeLabelReadsBack(total, TotalBaseline);
    ChangeLabel(total, TotalBaseline)
  }

  /** The active card's label, against a baseline of 2. */
  function ActiveChange(active: int): (text: string)
    ensures |text| > 0
    ensures ParseChange(text) == Some(active - ActiveBaseline)
    ensures text[0] == '+' <==> active > ActiveBaseline
    ensures text[0] == '-' <==> active < ActiveBaseline
    ensures active == ActiveBaseline ==> text == "0" + FromLastMonth
  {
    ChangeLabelReadsBack(active, ActiveBaseline);
    ChangeLabel(active, ActiveBaseline)
  }

  datatype StatCard = StatCard(caption: string, value: int, change: string)

  /** The three counter cards of the overview page. */
  function StatCards(st: Stats): (cards: seq<StatCard>)
    ensures |cards| == 3
    ensures |cards[0].change| > 0 && |cards[1].change| > 0
    ensures cards[0].value == st.totalTournaments
    ensures ParseChange(cards[0].change) == Some(st.totalTournaments - TotalBaseline)
    ensures cards[0].change[0] == '+' <==> st.totalTournaments > TotalBaseline
    ensures cards[0].change[0] == '-' <==> st.totalTournaments < TotalBaseline
    ensures st.totalTournaments == TotalBaseline ==> cards[0].change == "0" + FromLastMonth
    ensures cards[1].value == st.activeTournaments
    ensures ParseChange(cards[1].change) == Some(st.activeTournaments - ActiveBaseline)
    ensures cards[1].change[0] == '+' <==> st.activeTournaments > ActiveBaseline
    ensures cards[1].change[0] == '-' <==> st.activeTournaments < ActiveBaseline
    ensures st.activeTournaments == ActiveBaseline ==> cards[1].change == "0" + FromLastMonth
    ensures cards[2].value == st.upcomingTournaments
    ensures cards[2].change == SameAsLastMonth <==> st.upcomingTournaments == UpcomingBaseline
    ensures |cards[2].change| > 0
    ensures st.upcomingTournaments != UpcomingBaseline ==>
              ParseChange(cards[2].change) == Some(st.upcomingTournaments - UpcomingBaseline)
    ensures st.upcomingTournaments != UpcomingBaseline ==>
              (cards[2].change[0] == '+' <==> st.upcomingTournaments > UpcomingBaseline)
    ensures cards[2].change[0] == '-' <==> st.upcomingTournaments < UpcomingBaseline
  {
    var total := TotalChange(st.totalTournaments);
    var active := ActiveChange(st.activeTournaments);
    var upcoming := UpcomingChange(st.upcomingTournaments);
    [ StatCard("Total Tournaments", st.totalTournaments, total),
      StatCard("Active Tournaments", st.activeTournaments, active),
      StatCard("Upcoming Tournaments", st.upcomingTournaments, upcoming) ]
  }

  // ---------------------------------------------------------------------
  // Status badge

  /** The badge variants `getStatusVariant` chooses from. */
  datatype BadgeVariant = Destructive | Primary | Secondary | Outline {
    /** The class name the badge component receives. */
    function Name(): string {
      match this
      case Destructive => "destructive"
      case Primary => "default"
      case Secondary => "secondary"
      case Outline => "outline"
    }
  }

  function StatusVariant(status: string): (v: BadgeVariant)
    ensures v == Outline <==> status !in {Active, Upcoming, Completed}
  {
    if status == Active then Destructive
    else if status == Upcoming then Primary
    else if status == Completed then Secondary
    else Outline
  }

  /** The status a non-outline badge stands for. */
  function VariantStatus(v: BadgeVariant): Option<string> {
    match v
    case Destructive => Some(Active)
    case Primary => Some(Upcoming)
    case Secondary => Some(Completed)
    case Outline => None
  }

  /** Each known status has a badge of its own, and every other status shares
      the outline badge. */
  lemma StatusVariantReadsBack(status: string)
    ensures VariantStatus(StatusVariant(status)) ==
              if status in {Active, Upcoming, Completed} then Some(status) else None
    ensures StatusVariant(status).Name() ==
              if status == Active then "destructive"
              else if status == Upcoming then "default"
              else if status == Completed then "secondary"
              else "outline"
  {
  }

  // ---------------------------------------------------------------------
  // The page's view state and the recomputations its listeners trigger

  /** `!!localStorage.getItem("userData")` */
  predicate IsLoggedIn(s: Store) {
    s.userData.Some?
  }

  datatype IndexView = IndexView(tournaments: seq<Tournament>, isLoggedIn: bool, stats: Stats)

  const InitialView: IndexView := IndexView([], false, NoStats)

  /** The view agrees with the store. */
  predicate Fresh(v: IndexView, s: Store) {
    && v.tournaments == TournamentsOf(s)
    && v.stats == ComputeStats(v.tournaments)
    && v.isLoggedIn == IsLoggedIn(s)
  }

  /** `loadTournaments` */
  function LoadTournaments(v: IndexView, s: Store): (r: IndexView)
    ensures r.tournaments == TournamentsOf(s) && r.isLoggedIn == v.isLoggedIn
    ensures r.stats == ComputeStats(r.tournaments)
    ensures r.stats.totalTournaments == |r.tournaments|
    ensures s.tournaments.None? ==> r.stats == NoStats
  {
    var ts := TournamentsOf(s);
    v.(tournaments := ts, stats := ComputeStats(ts))
  }

  /** `checkLoginStatus` */
  function CheckLoginStatus(v: IndexView, s: Store): (r: IndexView)
    ensures r.isLoggedIn <==> s.userData.Some?
    ensures r.tournaments == v.tournaments && r.stats == v.stats
  {
    v.(isLoggedIn := IsLoggedIn(s))
  }

  /** The `storage` listener: recomputes only what the changed key feeds. */
  function OnStorage(v: IndexView, s: Store, key: string): (r: IndexView)
    ensures key != "tournaments" && key != "userData" ==> r == v
    ensures key == "tournaments" ==> r.tournaments == TournamentsOf(s) && r.isLoggedIn == v.isLoggedIn
    ensures key == "tournaments" ==> r.stats == ComputeStats(TournamentsOf(s))
    ensures key == "userData" ==> (r.isLoggedIn <==> s.userData.Some?) && r.tournaments == v.tournaments && r.stats == v.stats
  {
    var v1 := if key == "tournaments" then LoadTournaments(v, s) else v;
    if key == "userData" then CheckLoginStatus(v1, s) else v1
  }

  /** The `authChange` listener. */
  function OnAuthChange(v: IndexView, s: Store): IndexView {
    CheckLoginStatus(v, s)
  }

  /** The `focus` listener, which is also what the page runs on mount. */
  function OnFocus(v: IndexView, s: Store): (r: IndexView)
    ensures Fresh(r, s)
  {
    CheckLoginStatus(LoadTournaments(v, s), s)
  }

  /** Mounting the page: the state starts empty and logged out, and the mount
      effect runs the same two loaders as the `focus` listener, so the view
      then agrees with the store; an empty store leaves the initial view. */
  lemma MountIsFresh(s: Store)
    ensures Fresh(OnFocus(InitialView, s), s)
    ensures s.tournaments.None? && s.userData.None? ==> OnFocus(InitialView, s) == InitialView
  {
  }

  /** Recomputing from the same store gives the same view: a fresh view is a
      fixed point of every listener, whatever key a `storage` event names. */
  lemma RecomputeIsStable(v: IndexView, s: Store, key: string)
    requires Fresh(v, s)
    ensures OnFocus(v, s) == v
    ensures OnAuthChange(v, s) == v
    ensures OnStorage(v, s, key) == v
  {
  }

  /** The worked example: one active tournament of 10 players and one
      upcoming tournament of 5. */
  lemma TwoTournamentScenario(a: Tournament, b: Tournament)
    requires a.status == Active && a.players == Some(10)
    requires b.status == Upcoming && b.players == Some(5)
    ensures ComputeStats([a, b]) == Stats(2, 1, 15, 1, 0)
  {
    var ts := [a, b];
    assert ts[..1] == [a];
    assert [a][..0] == [];
    assert TotalPlayers([a]) == 10;
    assert TotalPlayers(ts) == 15;
    assert Filter(ts, HasStatus(Active)) == [a];
    assert Filter(ts, HasStatus(Upcoming)) == [b];
    assert Filter(ts, HasStatus(Completed)) == [];
  }
}

=== FILE: profile.dfy ===
/** The profile page's data layer (`frontend/src/pages/Profile.jsx`): the
    defaulted user record, hydrating it from the store, editing and saving it,
    the tournaments the user organises and the tournaments the user is
    registered in, and the avatar initials. */
module Profile {
  import opened Optional
  import opened Js
  import opened Text
  import opened Seqs
  import opened Store

  /** The record the page starts from before anything is read. */
  const DefaultUser: Object := map[
    "firstName" := Str("Demo"),
    "lastName" := Str("User"),
    "email" := Str("user@example.com"),
    "phone" := Str(""),
    "city" := Str(""),
    "state" := Str(""),
    "country" := Str("India"),
    "bio" := Str(""),
    "fideId" := Str(""),
    "aicfId" := Str(""),
    "dateOfBirth" := Str(""),
    "chessTitle" := Str(""),
    "avatar" := Null]

  /** The country field defaults to "India". */
  lemma DefaultCountry()
    ensures "country" in DefaultUser && Get(DefaultUser, "country") == Defined(Str("India"))
  {
  }

  /** The default record's full name, which the mount-time ownership filter
      compares against. */
  lemma DefaultFullName()
    ensures FullName(DefaultUser) == "Demo User"
  {
    assert Get(DefaultUser, "firstName") == Defined(Str("Demo"));
    assert Get(DefaultUser, "lastName") == Defined(Str("User"));
    assert "Demo" + " " + "User" == "Demo User";
  }

  /** A record the page can display: every default field is present. */
  predicate HasProfileShape(u: Object) {
    DefaultUser.Keys <= u.Keys
  }

  /** `loadUserData`: the stored object (`{}` when the key is absent) is spread
      over the current record, unless it has no properties at all. */
  function LoadUserData(current: Object, stored: Option<Object>): (r: Object)
    ensures stored.None? || stored.value == map[] ==> r == current
    ensures stored.Some? ==> r.Keys == current.Keys + stored.value.Keys
    ensures stored.Some? ==> forall k :: k in stored.value ==> Get(r, k) == Get(stored.value, k)
    ensures forall k :: (stored.None? || k !in stored.value) ==> Get(r, k) == Get(current, k)
  {
    var o := stored.GetOr(map[]);
    if |o| > 0 then Spread(current, o) else current
  }

  /** The record the page shows after mounting on store `s`. */
  function Hydrate(s: Store): Object {
    LoadUserData(DefaultUser, s.userData)
  }

  /** With nothing stored, or only `{}`, the page shows the defaults. */
  lemma HydrateUnstored(s: Store)
    requires s.userData.None? || s.userData.value == map[]
    ensures Hydrate(s) == DefaultUser
  {
  }

  /** The hydrated record has every default field; each stored field
      overrides, and each default field not stored keeps its default. */
  lemma HydrateOverrides(s: Store)
    ensures HasProfileShape(Hydrate(s))
    ensures s.userData.Some? ==> forall k :: k in s.userData.value ==> Get(Hydrate(s), k) == Get(s.userData.value, k)
    ensures forall k :: k in DefaultUser && (s.userData.None? || k !in s.userData.value) ==>
              Get(Hydrate(s), k) == Get(DefaultUser, k)
  {
  }

  /** One stored field, as the page shows it. */
  lemma HydrateStoredField(s: Store, k: string)
    requires s.userData.Some? && k in s.userData.value
    ensures Get(Hydrate(s), k) == Get(s.userData.value, k)
  {
  }

  /** One default field that is not stored, as the page shows it. */
  lemma HydrateDefaultField(s: Store, k: string)
    requires k in DefaultUser && s.userData.Some? && k !in s.userData.value
    ensures Get(Hydrate(s), k) == Get(DefaultUser, k)
  {
  }

  /** `handleInputChange(field, value)` */
  function EditField(u: Object, field: string, value: Value): (r: Object)
    ensures Get(r, field) == Defined(value)
    ensures forall k :: k != field ==> Get(r, k) == Get(u, k)
    ensures HasProfileShape(u) ==> HasProfileShape(r)
  {
    With(u, field, value)
  }

  /** `handleSave`: the whole record is written under `userData`; no other key changes. */
  function SaveProfile(s: Store, u: Object): (r: Store)
    ensures r.userData == Some(u)
    ensures r.authToken == s.authToken && r.role == s.role
    ensures r.tournaments == s.tournaments && r.registrations == s.registrations
  {
    s.(userData := Some(u))
  }

  /** Loading a saved record over any record with no extra fields gives back
      exactly the saved record. */
  lemma SaveThenLoadRoundTrip(s: Store, current: Object, u: Object)
    requires current.Keys <= u.Keys
    ensures LoadUserData(current, SaveProfile(s, u).userData) == u
  {
    if |u| > 0 {
      SpreadAbsorbed(current, u);
    } else {
      assert u.Keys == {};
      assert current == map[];
    }
  }

  /** Saving a displayed record and reloading the page shows that record again. */
  lemma SaveThenHydrate(s: Store, u: Object)
    requires HasProfileShape(u)
    ensures Hydrate(SaveProfile(s, u)) == u
  {
    SaveThenLoadRoundTrip(s, DefaultUser, u);
  }

  /** An edit that is saved survives a reload, and every other field keeps the
      value it had before the edit. */
  lemma EditSaveHydrate(s: Store, u: Object, field: string, value: Value)
    requires HasProfileShape(u)
    ensures Get(Hydrate(SaveProfile(s, EditField(u, field, value))), field) == Defined(value)
    ensures forall k :: k != field ==> Get(Hydrate(SaveProfile(s, EditField(u, field, value))), k) == Get(u, k)
  {
    SaveThenHydrate(s, EditField(u, field, value));
  }

  // ---------------------------------------------------------------------
  // Tournaments the user organises

  /** `userData.firstName + ' ' + userData.lastName`, with JavaScript's string
      coercion of a missing or null name. */
  function FullName(u: Object): string {
    ToText(Get(u, "firstName")) + " " + ToText(Get(u, "lastName"))
  }

  function OrganizedBy(name: string): Tournament -> bool {
    (t: Tournament) => t.organizerName == Some(name)
  }

  /** `loadUserTournaments` for an explicit user record. */
  function OwnedTournaments(s: Store, u: Object): (r: seq<Tournament>)
    ensures forall t :: t in r <==> t in TournamentsOf(s) && t.organizerName == Some(FullName(u))
  {
    FilterMembers(TournamentsOf(s), OrganizedBy(FullName(u)));
    Filter(TournamentsOf(s), OrganizedBy(FullName(u)))
  }

  /** The owned list is the stored list with exactly the non-matching
      positions deleted, the rest in stored order. */
  lemma OwnedTournamentsInOrder(s: Store, u: Object)
    ensures IsSubsequence(OwnedTournaments(s, u), TournamentsOf(s))
    ensures var ts := TournamentsOf(s);
            var kept := Kept(ts, OrganizedBy(FullName(u)));
            && Picks(OwnedTournaments(s, u), ts, kept)
            && forall i :: 0 <= i < |ts| ==> (i in kept <==> ts[i].organizerName == Some(FullName(u)))
  {
    FilterPicks(TournamentsOf(s), OrganizedBy(FullName(u)));
    KeptPositions(TournamentsOf(s), OrganizedBy(FullName(u)));
    FilterIsSubsequence(TournamentsOf(s), OrganizedBy(FullName(u)));
  }

  // ---------------------------------------------------------------------
  // Tournaments the user is registered in

  /** `registrations.some(reg => reg.email === email)` */
  function Registered(regs: seq<Object>, email: Field): (b: bool)
    ensures b <==> exists i :: 0 <= i < |regs| && Get(regs[i], "email") == email
    decreases |regs|
  {
    if |regs| == 0 then false
    else Get(regs[0], "email") == email || Registered(regs[1..], email)
  }

  function RegisteredWith(s: Store, email: Field): Tournament -> bool {
    (t: Tournament) => Registered(RegistrationsFor(s, t.id), email)
  }

  /** `loadParticipatedTournaments` for an explicit user record. */
  function ParticipatedTournaments(s: Store, u: Object): (r: seq<Tournament>)
    ensures forall t :: t in r <==>
      && t in TournamentsOf(s)
      && exists i :: 0 <= i < |RegistrationsFor(s, t.id)| && Get(RegistrationsFor(s, t.id)[i], "email") == Get(u, "email")
    ensures forall t :: t in r ==> RegistrationsKey(t.id) in s.registrations
  {
    FilterMembers(TournamentsOf(s), RegisteredWith(s, Get(u, "email")));
    Filter(TournamentsOf(s), RegisteredWith(s, Get(u, "email")))
  }

  /** The participation list is the stored list with exactly the positions the
      user is not registered in deleted, the rest in stored order. */
  lemma ParticipatedInOrder(s: Store, u: Object)
    ensures IsSubsequence(ParticipatedTournaments(s, u), TournamentsOf(s))
    ensures var ts := TournamentsOf(s);
            var kept := Kept(ts, RegisteredWith(s, Get(u, "email")));
            && Picks(ParticipatedTournaments(s, u), ts, kept)
            && forall i :: 0 <= i < |ts| ==> (i in kept <==> Registered(RegistrationsFor(s, ts[i].id), Get(u, "email")))
  {
    FilterPicks(TournamentsOf(s), RegisteredWith(s, Get(u, "email")));
    KeptPositions(TournamentsOf(s), RegisteredWith(s, Get(u, "email")));
    FilterIsSubsequence(TournamentsOf(s), RegisteredWith(s, Get(u, "email")));
  }

  /** Only the registration lists of stored tournaments matter: two stores with
      the same tournaments and the same lists under those tournaments' keys
      give the same participation, whatever else they hold. */
  lemma ParticipationIgnoresUnresolvedKeys(s1: Store, s2: Store, u: Object)
    requires TournamentsOf(s1) == TournamentsOf(s2)
    requires forall i :: 0 <= i < |TournamentsOf(s1)| ==>
               RegistrationsFor(s1, TournamentsOf(s1)[i].id) == RegistrationsFor(s2, TournamentsOf(s1)[i].id)
    ensures ParticipatedTournaments(s1, u) == ParticipatedTournaments(s2, u)
  {
    var email := Get(u, "email");
    FilterCongruent(TournamentsOf(s1), RegisteredWith(s1, email), RegisteredWith(s2, email));
  }

  /** A registration list stored under a key no stored tournament resolves to
      never changes the participation result. */
  lemma DanglingRegistrationsIgnored(s: Store, key: string, regs: seq<Object>, u: Object)
    requires forall i :: 0 <= i < |TournamentsOf(s)| ==> RegistrationsKey(TournamentsOf(s)[i].id) != key
    ensures ParticipatedTournaments(s.(registrations := s.registrations[key := regs]), u) == ParticipatedTournaments(s, u)
  {
    var s2 := s.(registrations := s.registrations[key := regs]);
    ParticipationIgnoresUnresolvedKeys(s2, s, u);
  }

  /** The worked example: a registration under `registrations_7` with the
      user's email puts tournament 7 in the list; any other email does not. */
  lemma RegistrationScenario(s: Store, t: Tournament, u: Object, other: Object)
    requires t.id == "7" && s.tournaments == Some([t])
    requires s.registrations == map["registrations_7" := [map["email" := Str("a@x.com")]]]
    requires Get(u, "email") == Defined(Str("a@x.com"))
    requires Get(other, "email") != Defined(Str("a@x.com"))
    ensures ParticipatedTournaments(s, u) == [t]
    ensures ParticipatedTournaments(s, other) == []
  {
    assert RegistrationsKey(t.id) == "registrations_7";
    var regs := RegistrationsFor(s, t.id);
    assert Get(regs[0], "email") == Defined(Str("a@x.com"));
    assert [t][..0] == [];
  }

  // ---------------------------------------------------------------------
  // Avatar initials

  /** `getInitials`: "U" without a first name, otherwise the first letters of
      the first and (when present) last name, upper-cased together. */
  function Initials(u: Object): (r: string)
    ensures 1 <= |r| <= 2
    ensures forall i :: 0 <= i < |r| ==> !IsLower(r[i])
    ensures !Truthy(Get(u, "firstName")) ==> r == "U"
    ensures Truthy(Get(u, "firstName")) ==>
      && r[0] == UpperChar(Get(u, "firstName").v.s[0])
      && (|r| == 2 <==> Truthy(Get(u, "lastName")))
      && (|r| == 2 ==> r[1] == UpperChar(Get(u, "lastName").v.s[0]))
  {
    var first, last := Get(u, "firstName"), Get(u, "lastName");
    if !Truthy(first) then "U"
    else ToUpper([first.v.s[0]] + (if Truthy(last) then [last.v.s[0]] else []))
  }
}

=== FILE: seqs.dfy ===
/** `Array.prototype.filter` over sequences, the positions it keeps, and what
    it means for one sequence to be an order-preserving subsequence of another. */
module Seqs {

  /** `xs.filter(p)`: the elements satisfying `p`, in their original order. */
  function Filter<T>(xs: seq<T>, p: T -> bool): (r: seq<T>)
    ensures |r| <= |xs|
    decreases |xs|
  {
    if |xs| == 0 then []
    else Filter(xs[..|xs| - 1], p) + (if p(xs[|xs| - 1]) then [xs[|xs| - 1]] else [])
  }

  /** The positions of `xs` whose elements `Filter` keeps, in increasing order. */
  function Kept<T>(xs: seq<T>, p: T -> bool): seq<nat>
    decreases |xs|
  {
    if |xs| == 0 then []
    else Kept(xs[..|xs| - 1], p) + (if p(xs[|xs| - 1]) then [|xs| - 1] else [])
  }

  /** `r` lists `xs[idx[0]], xs[idx[1]], ...` with strictly increasing `idx`. */
  ghost predicate Picks<T>(r: seq<T>, xs: seq<T>, idx: seq<nat>) {
    && |idx| == |r|
    && (forall k :: 0 <= k < |idx| ==> idx[k] < |xs| && r[k] == xs[idx[k]])
    && (forall k, l :: 0 <= k < l < |idx| ==> idx[k] < idx[l])
  }

  /** `r` is obtained from `xs` by deleting elements, keeping the order of the rest. */
  ghost predicate IsSubsequence<T>(r: seq<T>, xs: seq<T>) {
    exists idx :: Picks(r, xs, idx)
  }

  /** Picking from a prefix is picking from the whole sequence. */
  lemma PicksFromPrefix<T>(r: seq<T>, xs: seq<T>, n: nat, idx: seq<nat>)
    requires n <= |xs| && Picks(r, xs[..n], idx)
    ensures Picks(r, xs, idx)
    ensures forall k :: 0 <= k < |idx| ==> idx[k] < n
  {
    forall k | 0 <= k < |idx|
      ensures idx[k] < n && r[k] == xs[idx[k]]
    {
      assert xs[..n][idx[k]] == xs[idx[k]];
    }
  }

  /** A pick from a prefix extends by the element just after it. */
  lemma PicksExtend<T>(r: seq<T>, xs: seq<T>, n: nat, idx: seq<nat>)
    requires n < |xs| && Picks(r, xs[..n], idx)
    ensures Picks(r + [xs[n]], xs, idx + [n])
  {
    PicksFromPrefix(r, xs, n, idx);
    var r', idx' := r + [xs[n]], idx + [n];
    assert forall k :: 0 <= k < |idx| ==> idx'[k] == idx[k] && r'[k] == r[k];
  }

  /** `Filter` lists the kept positions' elements in their original order. */
  lemma {:induction false} FilterPicks<T>(xs: seq<T>, p: T -> bool)
    ensures Picks(Filter(xs, p), xs, Kept(xs, p))
    decreases |xs|
  {
    if |xs| > 0 {
      var n := |xs| - 1;
      FilterPicks(xs[..n], p);
      if p(xs[n]) {
        PicksExtend(Filter(xs[..n], p), xs, n, Kept(xs[..n], p));
      } else {
        PicksFromPrefix(Filter(xs[..n], p), xs, n, Kept(xs[..n], p));
      }
    }
  }

  /** The kept positions are exactly those whose element satisfies `p`. */
  lemma {:induction false} KeptPositions<T>(xs: seq<T>, p: T -> bool)
    ensures forall i :: 0 <= i < |xs| ==> (i in Kept(xs, p) <==> p(xs[i]))
    ensures forall k :: 0 <= k < |Kept(xs, p)| ==> Kept(xs, p)[k] < |xs|
    decreases |xs|
  {
    if |xs| > 0 {
      var n := |xs| - 1;
      var front := xs[..n];
      KeptPositions(front, p);
      forall i | 0 <= i < n
        ensures i in Kept(xs, p) <==> p(xs[i])
      {
        assert xs[i] == front[i];
      }
    }
  }

  /** Every kept element satisfies `p` and comes from `xs`; every element of
      `xs` that satisfies `p` is kept. */
  lemma FilterMembers<T>(xs: seq<T>, p: T -> bool)
    ensures forall i :: 0 <= i < |Filter(xs, p)| ==> Filter(xs, p)[i] in xs && p(Filter(xs, p)[i])
    ensures forall i :: 0 <= i < |xs| && p(xs[i]) ==> xs[i] in Filter(xs, p)
  {
    var r, idx := Filter(xs, p), Kept(xs, p);
    FilterPicks(xs, p);
    KeptPositions(xs, p);
    forall i | 0 <= i < |r|
      ensures r[i] in xs && p(r[i])
    {
      assert r[i] == xs[idx[i]] && idx[i] in idx;
    }
    forall i | 0 <= i < |xs| && p(xs[i])
      ensures xs[i] in r
    {
      var k :| 0 <= k < |idx| && idx[k] == i;
      assert r[k] == xs[i];
    }
  }

  lemma FilterIsSubsequence<T>(xs: seq<T>, p: T -> bool)
    ensures IsSubsequence(Filter(xs, p), xs)
  {
    FilterPicks(xs, p);
  }

  /** Two predicates that agree on every element of `xs` filter it alike. */
  lemma {:induction false} FilterCongruent<T>(xs: seq<T>, p: T -> bool, q: T -> bool)
    requires forall i :: 0 <= i < |xs| ==> p(xs[i]) == q(xs[i])
    ensures Filter(xs, p) == Filter(xs, q)
    decreases |xs|
  {
    if |xs| > 0 {
      var n := |xs| - 1;
      assert forall i :: 0 <= i < n ==> xs[..n][i] == xs[i];
      FilterCongruent(xs[..n], p, q);
    }
  }

  /** Filtering by three mutually exclusive predicates keeps at most every
      element once; exactly once when every element satisfies one of them. */
  lemma {:induction false} ExclusiveFilterCounts<T>(xs: seq<T>, p: T -> bool, q: T -> bool, s: T -> bool)
    requires forall i :: 0 <= i < |xs| ==> !(p(xs[i]) && q(xs[i])) && !(p(xs[i]) && s(xs[i])) && !(q(xs[i]) && s(xs[i]))
    ensures |Filter(xs, p)| + |Filter(xs, q)| + |Filter(xs, s)| <= |xs|
    ensures (forall i :: 0 <= i < |xs| ==> p(xs[i]) || q(xs[i]) || s(xs[i])) ==>
              |Filter(xs, p)| + |Filter(xs, q)| + |Filter(xs, s)| == |xs|
    decreases |xs|
  {
    if |xs| > 0 {
      var n := |xs| - 1;
      var front, x := xs[..n], xs[n];
      assert forall i :: 0 <= i < n ==> front[i] == xs[i];
      ExclusiveFilterCounts(front, p, q, s);
      assert |Filter(xs, p)| == |Filter(front, p)| + (if p(x) then 1 else 0);
      assert |Filter(xs, q)| == |Filter(front, q)| + (if q(x) then 1 else 0);
      assert |Filter(xs, s)| == |Filter(front, s)| + (if s(x) then 1 else 0);
    }
  }

  /** The positions of `xs` whose element satisfies `p`. */
  function Positions<T>(xs: seq<T>, p: T -> bool): set<nat> {
    set i: nat | i < |xs| && p(xs[i])
  }

  /** The positions of `xs` are those of its front, plus the last position
      when its element satisfies `p`. */
  lemma PositionsOfFront<T>(xs: seq<T>, p: T -> bool, n: nat)
    requires n + 1 == |xs|
    ensures Positions(xs, p) == Positions(xs[..n], p) + (if p(xs[n]) then {n} else {})
    ensures n !in Positions(xs[..n], p)
  {
    var all, front := Positions(xs, p), Positions(xs[..n], p);
    var last: set<nat> := if p(xs[n]) then {n} else {};
    forall i: nat | i < n
      ensures i in all <==> i in front
    {
      assert xs[..n][i] == xs[i];
    }
    assert all == front + last;
  }

  /** The length of a filter is the number of positions whose element
      satisfies the predicate. */
  lemma {:induction false} FilterCountsPositions<T>(xs: seq<T>, p: T -> bool)
    ensures |Filter(xs, p)| == |Positions(xs, p)|
    decreases |xs|
  {
    if |xs| > 0 {
      var n := |xs| - 1;
      FilterCountsPositions(xs[..n], p);
      PositionsOfFront(xs, p, n);
    }
  }
}

=== FILE: store.dfy ===
/** The browser-local key/value store the pages share, with each key's stored
    JSON already parsed into a typed value. */
module Store {
  import opened Optional
  import opened Js

  /** One entry of the stored `tournaments` array. `players` and
      `organizerName` may be missing from the stored object. */
  datatype Tournament = Tournament(
    id: string,              // rendered as text, as in the `registrations_<id>` key
    name: string,
    format: string,
    players: Option<int>,
    status: string,
    startDate: string,
    location: string,
    googleMapsLink: string,
    organizerName: Option<string>)

  /** The keys the pages read or write. `registrations` maps each stored
      `registrations_<id>` key to its array of registration objects. */
  datatype Store = Store(
    userData: Option<Object>,
    authToken: Option<string>,
    role: Option<string>,
    tournaments: Option<seq<Tournament>>,
    registrations: map<string, seq<Object>>)

  const RegistrationsPrefix: string := "registrations_"

  /** The key under which the registrations of tournament `id` are stored. */
  function RegistrationsKey(id: string): (k: string)
    ensures |k| == |RegistrationsPrefix| + |id|
    ensures k[..|RegistrationsPrefix|] == RegistrationsPrefix && k[|RegistrationsPrefix|..] == id
  {
    RegistrationsPrefix + id
  }

  /** Distinct tournament ids never share a registrations key. */
  lemma RegistrationsKeyInjective(a: string, b: string)
    ensures RegistrationsKey(a) == RegistrationsKey(b) <==> a == b
  {
    assert a == RegistrationsKey(a)[|RegistrationsPrefix|..];
    assert b == RegistrationsKey(b)[|RegistrationsPrefix|..];
  }

  /** `JSON.parse(localStorage.getItem("tournaments") || "[]")` */
  function TournamentsOf(s: Store): seq<Tournament> {
    s.tournaments.GetOr([])
  }

  /** ``JSON.parse(localStorage.getItem(`registrations_${id}`) || "[]")`` */
  function RegistrationsFor(s: Store, id: string): seq<Object> {
    var key := RegistrationsKey(id);
    if key in s.registrations then s.registrations[key] else []
  }

  /** Reading a tournament's registrations gives back what was last written
      for that tournament; writing the registrations of another tournament
      leaves them as they were. */
  lemma RegistrationsReadAfterWrite(s: Store, written: string, regs: seq<Object>, id: string)
    ensures var s' := s.(registrations := s.registrations[RegistrationsKey(written) := regs]);
            && (written == id ==> RegistrationsFor(s', id) == regs)
            && (written != id ==> RegistrationsFor(s', id) == RegistrationsFor(s, id))
  {
    RegistrationsKeyInjective(written, id);
  }
}

=== FILE: text.dfy ===
/** Decimal rendering of integers, as JavaScript's number-to-string conversion
    produces it for integral values below 10^21 in magnitude (larger ones it
    writes in exponent form, which this rendering does not), a parser that
    reads such a rendering back, and ASCII upper-casing. */
module Text {
  import opened Optional

  predicate IsDigit(c: char) {
    '0' <= c <= '9'
  }

  predicate AllDigits(s: string) {
    forall i :: 0 <= i < |s| ==> IsDigit(s[i])
  }

  function DigitChar(d: nat): (c: char)
    requires d < 10
    ensures IsDigit(c)
  {
    ('0' as int + d) as char
  }

  function DigitValue(c: char): (d: nat)
    requires IsDigit(c)
    ensures d < 10 && DigitChar(d) == c
  {
    c as int - '0' as int
  }

  /** The shortest decimal numeral of `n`. */
  function NatToString(n: nat): (r: string)
    ensures |r| > 0 && AllDigits(r)
    decreases n
  {
    if n < 10 then [DigitChar(n)] else NatToString(n / 10) + [DigitChar(n % 10)]
  }

  /** `String(n)` for an integral number of magnitude below 10^21: a `-` before
      the magnitude when negative. */
  function IntToString(n: int): string {
    if n < 0 then "-" + NatToString(-n) else NatToString(n)
  }

  /** The number a string of decimal digits denotes. */
  function DigitsValue(s: string): nat
    requires AllDigits(s)
  {
    if |s| == 0 then 0 else 10 * DigitsValue(s[..|s| - 1]) + DigitValue(s[|s| - 1])
  }

  /** Reads a non-empty digit string; anything else is rejected. */
  function ParseNat(s: string): Option<nat> {
    if |s| > 0 && AllDigits(s) then Some(DigitsValue(s)) else None
  }

  /** Reads an optionally signed numeral: `+7`, `-3`, `0`. */
  function ParseSigned(s: string): Option<int> {
    if |s| > 0 && s[0] == '-' then
      match ParseNat(s[1..])
      case Some(n) => Some(0 - n as int)
      case None => None
    else if |s| > 0 && s[0] == '+' then
      match ParseNat(s[1..])
      case Some(n) => Some(n)
      case None => None
    else
      match ParseNat(s)
      case Some(n) => Some(n)
      case None => None
  }

  lemma {:induction false} DigitsValueOfNatToString(n: nat)
    ensures DigitsValue(NatToString(n)) == n
    decreases n
  {
    var r := NatToString(n);
    if n >= 10 {
      var p := NatToString(n / 10);
      assert r == p + [DigitChar(n % 10)];
      assert r[..|r| - 1] == p;
      DigitsValueOfNatToString(n / 10);
    }
  }

  /** The numeral of a natural number reads back as that number. */
  lemma NatToStringRoundTrip(n: nat)
    ensures ParseNat(NatToString(n)) == Some(n)
  {
    DigitsValueOfNatToString(n);
  }

  /** The rendering of any integer reads back as that integer, and it starts
      with `-` exactly when the integer is negative. */
  lemma IntToStringRoundTrip(n: int)
    ensures ParseSigned(IntToString(n)) == Some(n)
    ensures |IntToString(n)| > 0
    ensures IntToString(n)[0] == '-' <==> n < 0
    ensures IntToString(n)[0] != '+'
  {
    if n < 0 {
      var m := NatToString(-n);
      assert IntToString(n) == "-" + m;
      assert IntToString(n)[0] == '-';
      assert IntToString(n)[1..] == m;
      NatToStringRoundTrip(-n);
    } else {
      var m := NatToString(n);
      assert IntToString(n) == m;
      NatToStringRoundTrip(n);
      assert IsDigit(m[0]);
    }
  }

  predicate IsLower(c: char) {
    'a' <= c <= 'z'
  }

  /** `toUpperCase` on one character, for the ASCII letters. */
  function UpperChar(c: char): (u: char)
    ensures !IsLower(u)
    ensures !IsLower(c) ==> u == c
    ensures IsLower(c) ==> u as int == c as int - 32
  {
    if IsLower(c) then (c as int - 32) as char else c
  }

  /** `toUpperCase` on a string, letter by letter: the length is kept, no
      lower-case letter survives, every other character is unchanged, and each
      lower-case letter moves to its upper-case partner 32 code points below. */
  function ToUpper(s: string): (r: string)
    ensures |r| == |s|
    ensures forall i :: 0 <= i < |r| ==> !IsLower(r[i])
    ensures forall i :: 0 <= i < |s| && !IsLower(s[i]) ==> r[i] == s[i]
    ensures forall i :: 0 <= i < |s| && IsLower(s[i]) ==> r[i] as int == s[i] as int - 32
  {
    seq(|s|, i requires 0 <= i < |s| => UpperChar(s[i]))
  }

  /** Upper-casing twice is upper-casing once. */
  lemma ToUpperIdempotent(s: string)
    ensures ToUpper(ToUpper(s)) == ToUpper(s)
  {
  }
}
